=== FILE: README.md ===
# TodoList client session and CORS middleware in Dafny

A model of the decision logic of a small todo-list web application. The
browser client (React) lets a user log in or register. It then keeps a
bearer token in App state and in local storage, and shows a todo list whose
entries can be added, deleted and toggled, with a progress bar above them.
The backend contains a hand-written CORS middleware; the server shown
does not mount it.

Modules, one per component of the program:

- `Http`: optional values, the abstract outcome of one request (`Reply`:
  a 2xx body, no response, or an error status with an optional `msg`), and
  JavaScript truthiness of optional strings.
- `Todos`: the `Todo` record. It holds the pure list updates that the
  TodoList handlers apply after a successful reply: append, filter by id,
  replace by id. It also counts completed todos.
- `Progress`: the rounded completion percentage and the progress bar's
  status.
- `AuthForms`: the submitted credentials and the rules the Login and
  Register forms share (username `required` + `min: 3`, password
  required), plus the shared network-error message.
- `Login` and `Register`: each form's acceptance rule and the message shown
  when its request fails. `Register` also holds the ordered password
  validator.
- `App`: the client session as a state machine. `Client` holds the token in
  App state, the token in storage, the selected form and the mounted list.
  `Event` is a user action together with the server's reply. `Step` is what
  the handlers do with it, and `RequestOf` is the request each handler sends.
- `Cors`: the middleware's decision from `(origin, method)` to a header map
  and "end with 204" or "call next".

Requests are not performed. Each event carries the reply the request got,
so every branch of every `catch` block is reachable by choosing the reply.
Local storage is the `stored` field of `Client`.

The server-side registration, login, token checks and todo ownership rules
sit in backend route files (`routes/auth`, `routes/todo`), which are not
part of this model. Nothing here states anything about them.

## Model

| member | source | states |
|---|---|---|
| Todos.Append | frontend/src/components/TodoList.js:48 | a successful add puts the server's todo at the end; the list grows by one and the old entries form its unchanged prefix |
| Todos.RemoveId | frontend/src/components/TodoList.js:67 | a successful delete keeps exactly the entries whose id differs (membership iff), no entry with that id survives, and the list never grows |
| Todos.RemoveIdConcat | frontend/src/components/TodoList.js:67 | the delete filter distributes over concatenation, so surviving entries keep their relative order |
| Todos.RemoveAbsentId | frontend/src/components/TodoList.js:67 | deleting an id no entry carries leaves the list unchanged |
| Todos.RemoveIdIdempotent | frontend/src/components/TodoList.js:67 | deleting the same id twice is the same as deleting it once |
| Todos.AppendThenRemove | frontend/src/components/TodoList.js:48-67 | adding a todo with a new id and then deleting that id gives back the original list |
| Todos.ReplaceId | frontend/src/components/TodoList.js:89 | a successful toggle keeps the length, leaves every entry with another id untouched, and puts the server's todo at each entry with the id |
| Todos.ReplaceAbsentId | frontend/src/components/TodoList.js:89 | replacing an id no entry carries leaves the list unchanged |
| Todos.ReplaceUniqueId | frontend/src/components/TodoList.js:89 | on a list with unique ids, the replace updates exactly one index |
| Todos.ToggleTwiceRestores | frontend/src/components/TodoList.js:83-89 | on a list with unique ids, toggling a todo and toggling it back, with the server echoing the requested flag, restores the list |
| Todos.CountCompleted | frontend/src/components/TodoList.js:34 | the completed count is at most the length; it equals the length iff every todo is completed, and it is 0 iff none is |
| Todos.CountCompletedUpdate | frontend/src/components/TodoList.js:34 | changing one entry changes the completed count by the difference of the two entries' flags |
| Todos.CompletingCountsOne | frontend/src/components/TodoList.js:83-89 | completing one open todo of a list with unique ids raises the completed count by exactly one |
| Progress.Percent | frontend/src/components/TodoList.js:35 | 0 for an empty list; otherwise the nearest integer to 100·completed/total with halves rounded up (2n·p ≤ 200c + n < 2n·(p+1)), and never above 100 |
| Progress.ProgressOf | frontend/src/components/TodoList.js:32-36 | the progress of a list lies in 0..100 and is 0 for the empty list |
| Progress.AllCompletedIsFull | frontend/src/components/TodoList.js:34-35 | a non-empty list with every todo completed shows 100 |
| Progress.NoneCompletedIsEmpty | frontend/src/components/TodoList.js:33-35 | a list with no completed todo shows 0 |
| Progress.PercentMonotonic | frontend/src/components/TodoList.js:35 | for a fixed length, the percentage never decreases as the completed count grows |
| Progress.CompletingNeverLowers | frontend/src/components/TodoList.js:32-36 | on a list with unique ids, completing an open todo never lowers the progress |
| Progress.StatusAsWritten | frontend/src/components/TodoList.js:117 | the bar's status as written: success iff the rounded percentage is 100 |
| Progress.StatusAsWrittenSucceedsEarly | frontend/src/components/TodoList.js:117 | with 201 todos of which 200 are completed, the status as written is success, yet an open todo exists |
| Progress.StatusOf | frontend/src/components/TodoList.js:117 | the intended status: success iff the list is non-empty and every todo is completed; success always comes with 100 |
| Progress.StatusAgreesBelow200 | frontend/src/components/TodoList.js:117 | below 200 todos the status as written and the intended status coincide |
| AuthForms.CheckUsername | frontend/src/components/Register.js:73-76 | the username is accepted iff it has at least 3 characters; absent or empty gives the "required" message, 1–2 characters the length message (same rules at Login.js:66-69) |
| AuthForms.UsernameRulesSeparately | frontend/src/components/Register.js:73-76 | judged one by one, `required` fails iff the value is absent or empty and `min` fails iff a non-empty value is shorter than 3; at most one fails, and the verdict shows that one's message |
| AuthForms.CheckRequired | frontend/src/components/Login.js:77 | a required-only field is accepted iff it is present and non-empty, and otherwise shows its message |
| Login.Accepts | frontend/src/components/Login.js:63-77 | the form reaches `handleSubmit` iff the username has at least 3 characters and the password is present and non-empty |
| Login.FailureText | frontend/src/components/Login.js:36-43 | no response gives the network message; a 401 gives the one generic bad-credentials message; any other status gives the server `msg` if truthy, else the default login error; never empty |
| Login.AcceptsAnyNonEmptyPassword | frontend/src/components/Login.js:66-77 | with a valid username, the login form accepts any non-empty password; there is no strength rule |
| Login.UnauthorizedIsUniform | frontend/src/components/Login.js:39-40 | every 401 reply shows the same message whatever its `msg`; whether an unknown user and a wrong password both get a 401 is up to the server routes, which are not modelled |
| Register.ValidatePassword | frontend/src/components/Register.js:17-23 | absent/empty gives "required"; non-empty under 6 characters gives "length"; 6+ without A–Z gives "uppercase"; with A–Z but no character of the special set gives "special"; accepted iff all four checks hold |
| Register.FirstFailing | frontend/src/components/Register.js:17-22 | reference reading of an ordered rule list: `None` iff every rule holds; otherwise a rule that fails with all rules before it holding |
| Register.ValidateIsFirstFailing | frontend/src/components/Register.js:17-22 | the validator reports exactly the first failing check in the order required, length, uppercase, special |
| Register.CheckPassword | frontend/src/components/Register.js:84 | the password field is valid iff all four checks hold, and otherwise shows the message of the first failing check |
| Register.Accepts | frontend/src/components/Register.js:70-87 | the form reaches `handleSubmit` iff the username has at least 3 characters and the password has at least 6 characters, an ASCII capital and a character of the special set |
| Register.FailureText | frontend/src/components/Register.js:43-50 | no response gives the network message; a `msg` of exactly "Username already exists" gives the duplicate-account message; otherwise the server `msg` if truthy, else the default registration error; the raw English duplicate text is never shown |
| Register.RegisterStricterThanLogin | frontend/src/components/Register.js:17-22 | every password registration accepts also passes the login rule, and "a" shows that the converse fails |
| App.Init | frontend/src/App.js:8-9 | the session starts with the stored token in App state and the Login form selected |
| App.ScreenOf | frontend/src/App.js:14-18 | the todo list is shown iff the token is truthy; otherwise Login iff `isLogin`, else Register |
| App.FormTitle | frontend/src/components/Login.js:53 | the headings the screens display: "Đăng nhập" for Login, "Đăng ký" for Register (Register.js:60), "Todo List" for the list (TodoList.js:114) |
| App.FormTitlesDistinct | frontend/src/components/Register.js:60 | different screens show different headings, so the toggle label singles out one form |
| App.ToggleTarget | frontend/src/App.js:21 | the toggle leads to a form, never to the todo list, and to Login iff Register is selected |
| App.ToggleLabel | frontend/src/App.js:23 | the toggle label names the heading of the other form, never the selected one |
| App.ToggleForm | frontend/src/App.js:21 | the toggle flips `isLogin` and changes nothing else |
| App.ToggleTwice | frontend/src/App.js:21 | toggling twice is the identity |
| App.ToggleShowsLabelledForm | frontend/src/App.js:18-23 | without a token, toggling shows exactly the form the label named, which was not the one shown |
| App.TokenOverridesForm | frontend/src/App.js:14-15 | with a token the todo list is shown whichever form is selected |
| App.Enabled | frontend/src/App.js:14-26 | without a token only the selected form's submission and the toggle are rendered; with a truthy token only the TodoList's actions are, and a delete or toggle only for an entry of the list, a toggle carrying that entry's current flag (TodoList.js:140, 147) |
| App.FetchRequest | frontend/src/components/TodoList.js:12-29 | todos are fetched only when the token is truthy, with a `Bearer` authorization header carrying it |
| App.RequestOf | frontend/src/components/TodoList.js:38-99 | login and register send a request iff their form rules pass; an add is sent iff the title is present and non-empty (a whitespace-only title is sent), and then posts that title; a toggle sends the negation of the flag of the list entry with that id, and a delete names an id the list holds; every todo request carries `Bearer <token>` (the login and register requests are at Login.js:21-30 and Register.js:28-37) |
| App.SignedOut | frontend/src/components/TodoList.js:106-109 | signing out clears both the App token and the stored token and changes nothing else |
| App.SignedIn | frontend/src/components/Login.js:31-32 | signing in puts the same token in App state and in storage, and the next TodoList starts empty |
| App.Expire | frontend/src/components/TodoList.js:20-26 | a 401 reply signs out; any other failure changes nothing |
| App.Erase | frontend/src/components/TodoList.js:51-58 | dropping a reply's payload keeps whether it succeeded and whether it is a 401 |
| App.Step | frontend/src/components/TodoList.js:12-109 | every handler (the TodoList ones here, the form submissions at Login.js:18-49 and Register.js:25-56) keeps the App token and the stored token equal when they were equal, and only the toggle changes the selected form |
| App.TodoFailure | frontend/src/components/TodoList.js:51-98 | a failed fetch, add, delete or toggle signs out on 401 and leaves the todo screen; any other failure changes nothing; the list is never touched |
| App.LoginStoresToken | frontend/src/components/Login.js:31-32 | a successful login stores the returned token in App state and in storage, and shows the todo list when it is non-empty; a failed or blocked one changes nothing |
| App.RegisterStoresToken | frontend/src/components/Register.js:38-39 | a successful registration stores the returned token in App state and in storage; a failed or blocked one changes nothing |
| App.LogoutClearsToken | frontend/src/components/TodoList.js:106-109 | logout always clears both copies of the token and leaves the todo screen |
| App.RunKeepsTokenStored | frontend/src/App.js:8 | in every state reachable from start-up, App state and storage hold the same token |
| Cors.Handle | backend/middleware/cors.js:1-29 | Allow-Origin is set, to the request origin, iff the origin is exactly one of the three listed; Allow-Methods, Allow-Headers and Allow-Credentials=true are always set; Max-Age=86400 iff the method is OPTIONS; OPTIONS ends with 204, every other method calls next; no other header is set |
| Cors.PreflightAddsOnlyMaxAge | backend/middleware/cors.js:14-26 | a preflight gets exactly the headers of any other request from the same origin, plus Max-Age |
| Cors.ContinuationIgnoresOrigin | backend/middleware/cors.js:9-28 | whether the request is passed on depends on the method alone; a disallowed origin is not blocked |
| Cors.NeverWildcardWithCredentials | backend/middleware/cors.js:9-20 | credentials are always allowed and the Allow-Origin value is never the wildcard |
| Cors.MatchIsExact | backend/middleware/cors.js:2-11 | a listed origin matches; a trailing slash, a change of case or a missing header does not |

## Left out

- Requests, timing and async ordering. Each event carries the reply its request got, and `Step` applies events in delivery order. A late 401 from an earlier session would clear a newer token; that race is not modelled.
- App.Step: applies each reply to the list as it is when the reply arrives. The handlers at TodoList.js:48, 67 and 89 apply it to the `todos` captured when the handler was created. Two overlapping adds therefore keep only the second in the source, and two overlapping deletes bring the first deleted entry back; the model does not show these lost updates.
- App.Step: storage belongs to one `Client` and writing to it never fails. In the browser, `localStorage.setItem` can throw (storage full or disabled) after `setToken` has run (Login.js:31-32, Register.js:38-39), leaving the token in App state but not in storage, and the `catch` block then shows the network-error message for a login that succeeded. Local storage is also shared by every tab of the origin, so a logout in one tab (TodoList.js:108) removes the stored token while another tab's App state keeps it.
- App.RunKeepsTokenStored: holds for this single-tab model with infallible storage writes and replies that carry a token only. A throwing `setItem` after a successful login or registration, a logout in another tab, or a 2xx login or register reply without `token` (`undefined` in App state, the string "undefined" in storage) leaves App state and storage holding different tokens in the source.
- App.LoginStoresToken: assumes the `setItem` call succeeds and the reply carries a token string, as above.
- App.RegisterStoresToken: assumes the `setItem` call succeeds and the reply carries a token string, as above.
- React rendering, antd components, toast messages, `console` output, `isLoading` flags and `form.resetFields()`. None of them changes the modelled state.
- Progress.Percent: uses exact rounding of 100·completed/total. The floating-point `Math.round(completed / length * 100)` can differ from it when the exact value is a half, so the float version is not modelled.
- Register.ValidatePassword: counts `.length` in characters. JavaScript counts UTF-16 code units, so a character outside the Basic Multilingual Plane counts twice in the source and once here.
- Register.CheckPassword: the same character count for its "at least 6 characters" check.
- Register.Accepts: the same character count for its "at least 6 characters" check.
- App.Step: mounting a TodoList is modelled by starting from an empty list at sign-in. Discarding the list when the TodoList unmounts is not modelled, and the list of a signed-out client is never shown.
- App.Step: accepts any event in any state. `Enabled` says which events the rendered screen can produce, and only `RequestOf` requires it.
- App.Step: a 2xx login or register reply without a `token` field is left out. The source would store `undefined` in state and the string "undefined" in storage; the model assumes the reply carries a token string.
- Server `msg` values that are not strings are left out.
- backend/server.js and backend/api/index.js (Express and database wiring, static files) are not part of this model. The deployed server registers the third-party `cors()` package (server.js:17), not this middleware. `Cors.Handle` models the middleware as written, not the deployed behaviour.
- frontend/vite.config.js (build and dev proxy) and the `apiUrl` configuration are not part of this model.
- Server-side registration, password hashing, token signing and checking, and todo ownership live in backend route files that are not part of this model.

## Findings

| source | as written | input that shows it | evidently intended | confidence | as-written member | corrected member |
|---|---|---|---|---|---|---|
| frontend/src/components/TodoList.js:117 | the progress bar reports `success` iff the rounded percentage is 100 | 201 todos, 200 of them completed: 100·200/201 ≈ 99.5 rounds to 100, so the bar shows success with a todo still open (from 200 todos on, one open todo can be rounded away) | success exactly when the list is non-empty and every todo is completed | medium, not executed | Progress.StatusAsWritten, Progress.StatusAsWrittenSucceedsEarly | Progress.StatusOf, Progress.StatusAgreesBelow200 |

=== FILE: app.dfy ===
/** The browser session as the App component and its children keep it: the
    token in App state and in local storage, which form is selected, and
    the list of the mounted TodoList. Every user action and every server
    reply is an `Event`, and `Step` is what the handlers do with it. */
module App {
  import opened Http
  import opened Todos
  import opened AuthForms
  import Login
  import Register

  /** `token` and `isLogin` of App, the `token` entry of local storage, and
      `todos` of the TodoList component (meaningful while it is mounted). */
  datatype Client = Client(token: Option<string>, stored: Option<string>, isLogin: bool, todos: seq<Todo>)

  datatype Screen = TodoScreen | LoginScreen | RegisterScreen

  /** The state App starts from: the token is read from storage and the
      Login form is selected. */
  function Init(stored: Option<string>): (c: Client)
    ensures c.token == stored && c.stored == stored
    ensures c.isLogin && c.todos == []
  {
    Client(stored, stored, true, [])
  }

  /** The screen App renders: the todo list whenever the token is truthy,
      otherwise the selected form. */
  function ScreenOf(c: Client): (s: Screen)
    ensures s == TodoScreen <==> Truthy(c.token)
    ensures s == LoginScreen <==> !Truthy(c.token) && c.isLogin
    ensures s == RegisterScreen <==> !Truthy(c.token) && !c.isLogin
  {
    if Truthy(c.token) then TodoScreen
    else if c.isLogin then LoginScreen
    else RegisterScreen
  }

  /** The heading each screen displays; the three headings differ. */
  function FormTitle(s: Screen): (text: string)
    ensures s == LoginScreen ==> text == "Đăng nhập"
    ensures s == RegisterScreen ==> text == "Đăng ký"
    ensures s == TodoScreen ==> text == "Todo List"
  {
    match s
    case LoginScreen => "Đăng nhập"
    case RegisterScreen => "Đăng ký"
    case TodoScreen => "Todo List"
  }

  /** Different screens show different headings. */
  lemma FormTitlesDistinct(s: Screen, t: Screen)
    requires s != t
    ensures FormTitle(s) != FormTitle(t)
  {
  }

  /** The form the toggle button switches to. */
  function ToggleTarget(isLogin: bool): (s: Screen)
    ensures s != TodoScreen
    ensures s == LoginScreen <==> !isLogin
  {
    if isLogin then RegisterScreen else LoginScreen
  }

  /** The label of the toggle button: "switch to" and the heading of the
      form that is not shown. */
  function ToggleLabel(isLogin: bool): (text: string)
    ensures text == "Chuyển sang " + FormTitle(ToggleTarget(isLogin))
    ensures text != "Chuyển sang " + FormTitle(if isLogin then LoginScreen else RegisterScreen)
  {
    "Chuyển sang " + (if isLogin then "Đăng ký" else "Đăng nhập")
  }

  /** `setIsLogin(!isLogin)`: flips the selected form and nothing else. */
  function ToggleForm(c: Client): (c': Client)
    ensures c'.isLogin == !c.isLogin
    ensures c'.token == c.token && c'.stored == c.stored && c'.todos == c.todos
  {
    c.(isLogin := !c.isLogin)
  }

  /** Toggling twice is the identity. */
  lemma ToggleTwice(c: Client)
    ensures ToggleForm(ToggleForm(c)) == c
  {
  }

  /** Without a token, toggling shows exactly the form the label named,
      which is the one that was not shown before. */
  lemma ToggleShowsLabelledForm(c: Client)
    requires !Truthy(c.token)
    ensures ScreenOf(ToggleForm(c)) == ToggleTarget(c.isLogin)
    ensures ScreenOf(c) != ToggleTarget(c.isLogin)
  {
  }

  /** With a token the todo list is shown whichever form is selected. */
  lemma TokenOverridesForm(c: Client)
    requires Truthy(c.token)
    ensures ScreenOf(c) == ScreenOf(ToggleForm(c)) == TodoScreen
  {
  }

  /** What can happen to the session: a form submission together with the
      reply to its request, a toggle, the reply to one of the TodoList's
      requests, or a logout. A field a submission leaves untouched is
      absent. */
  datatype Event =
    | LoginSubmitted(form: Credentials, login: Reply<string>)
    | RegisterSubmitted(form: Credentials, register: Reply<string>)
    | FormToggled
    | TodosFetched(fetched: Reply<seq<Todo>>)
    | TodoAdded(title: Option<string>, added: Reply<Todo>)
    | TodoDeleted(id: string, deleted: Reply<()>)
    | TodoToggled(id: string, completed: bool, updated: Reply<Todo>)
    | LoggedOut

  /** Some entry of the list carries `id` with the flag `completed`: the
      entry whose Delete button and checkbox are rendered. */
  predicate ShowsEntry(todos: seq<Todo>, id: string, completed: bool) {
    exists i :: 0 <= i < |todos| && todos[i].id == id && todos[i].completed == completed
  }

  /** The events the rendered screen can produce: the selected form's
      submission and the toggle while there is no token, the TodoList's
      actions while there is one, a delete or a toggle only from the
      buttons of a rendered entry, with its id and current flag. */
  predicate Enabled(c: Client, e: Event)
    ensures e.LoginSubmitted? ==> (Enabled(c, e) <==> !Truthy(c.token) && c.isLogin)
    ensures e.RegisterSubmitted? ==> (Enabled(c, e) <==> !Truthy(c.token) && !c.isLogin)
    ensures e.FormToggled? ==> (Enabled(c, e) <==> !Truthy(c.token))
    ensures e.TodosFetched? || e.TodoAdded? || e.LoggedOut? ==> (Enabled(c, e) <==> Truthy(c.token))
    ensures e.TodoDeleted? ==> (Enabled(c, e) <==> Truthy(c.token) && HasId(c.todos, e.id))
    ensures e.TodoToggled? ==> (Enabled(c, e) <==>
      Truthy(c.token) && exists i :: 0 <= i < |c.todos| && c.todos[i].id == e.id && c.todos[i].completed == e.completed)
  {
    match e
    case LoginSubmitted(_, _) => ScreenOf(c) == LoginScreen
    case RegisterSubmitted(_, _) => ScreenOf(c) == RegisterScreen
    case FormToggled => ScreenOf(c) != TodoScreen
    case TodoDeleted(id, _) => ScreenOf(c) == TodoScreen && HasId(c.todos, id)
    case TodoToggled(id, completed, _) => ScreenOf(c) == TodoScreen && ShowsEntry(c.todos, id, completed)
    case _ => ScreenOf(c) == TodoScreen
  }

  /** The requests the client sends. */
  datatype Request =
    | PostLogin(username: string, password: string)
    | PostRegister(username: string, password: string)
    | GetTodos(authorization: string)
    | PostTodo(authorization: string, title: string)
    | PutTodo(authorization: string, id: string, completed: bool)
    | DeleteTodo(authorization: string, id: string)

  /** The `Authorization` header of every todo request. */
  function Bearer(token: string): string {
    "Bearer " + token
  }

  /** The request the fetch effect sends when TodoList mounts or the token
      changes: one only when the token is truthy. */
  function FetchRequest(token: Option<string>): (r: Option<Request>)
    ensures r.Some? <==> Truthy(token)
    ensures r.Some? ==> r.value == GetTodos(Bearer(token.value))
  {
    if Truthy(token) then Some(GetTodos(Bearer(token.value))) else None
  }

  /** The request the handler of `e` sends, or `None` when a form rule
      stops the submission or the event sends nothing. */
  function RequestOf(c: Client, e: Event): (r: Option<Request>)
    requires Enabled(c, e)
    ensures e.LoginSubmitted? ==> (r.Some? <==> Login.Accepts(e.form))
    ensures e.LoginSubmitted? && r.Some? ==> r.value == PostLogin(e.form.username.value, e.form.password.value)
    ensures e.RegisterSubmitted? ==> (r.Some? <==> Register.Accepts(e.form))
    ensures e.RegisterSubmitted? && r.Some? ==> r.value == PostRegister(e.form.username.value, e.form.password.value)
    ensures e.TodoAdded? ==> (r.Some? <==> !Blank(e.title))
    ensures e.TodoAdded? && r.Some? ==> r.value == PostTodo(Bearer(c.token.value), e.title.value)
    ensures e.TodoToggled? ==> r.Some? && r.value.PutTodo? && r.value.id == e.id
    ensures e.TodoToggled? ==> exists i :: 0 <= i < |c.todos| && c.todos[i].id == e.id && r.value.completed == !c.todos[i].completed
    ensures e.TodoDeleted? ==> r == Some(DeleteTodo(Bearer(c.token.value), e.id)) && HasId(c.todos, r.value.id)
    ensures e.TodosFetched? ==> r == FetchRequest(c.token)
    ensures e.FormToggled? || e.LoggedOut? ==> r.None?
    ensures r.Some? && !r.value.PostLogin? && !r.value.PostRegister? ==> r.value.authorization == Bearer(c.token.value)
  {
    match e
    case LoginSubmitted(form, _) =>
      if Login.Accepts(form) then Some(PostLogin(form.username.value, form.password.value)) else None
    case RegisterSubmitted(form, _) =>
      if Register.Accepts(form) then Some(PostRegister(form.username.value, form.password.value)) else None
    case FormToggled => None
    case TodosFetched(_) => FetchRequest(c.token)
    case TodoAdded(title, _) =>
      if Blank(title) then None else Some(PostTodo(Bearer(c.token.value), title.value))
    case TodoDeleted(id, _) => Some(DeleteTodo(Bearer(c.token.value), id))
    case TodoToggled(id, completed, _) => Some(PutTodo(Bearer(c.token.value), id, !completed))
    case LoggedOut => None
  }

  /** `setToken(null); localStorage.removeItem('token')` */
  function SignedOut(c: Client): (c': Client)
    ensures c'.token.None? && c'.stored.None?
    ensures c'.isLogin == c.isLogin && c'.todos == c.todos
  {
    c.(token := None, stored := None)
  }

  /** `setToken(token); localStorage.setItem('token', token)`; the TodoList
      that mounts next starts from an empty list. */
  function SignedIn(c: Client, token: string): (c': Client)
    ensures c'.token == Some(token) && c'.stored == Some(token)
    ensures c'.isLogin == c.isLogin && c'.todos == []
  {
    c.(token := Some(token), stored := Some(token), todos := [])
  }

  /** The `catch` block shared by the TodoList requests: a 401 ends the
      session, any other failure leaves the state as it was. */
  function Expire<T>(c: Client, reply: Reply<T>): (c': Client)
    ensures IsUnauthorized(reply) ==> c' == SignedOut(c)
    ensures !IsUnauthorized(reply) ==> c' == c
  {
    if IsUnauthorized(reply) then SignedOut(c) else c
  }

  /** The state after the handlers have dealt with `e`. */
  function Step(c: Client, e: Event): (c': Client)
    ensures c.token == c.stored ==> c'.token == c'.stored
    ensures c'.isLogin == (if e.FormToggled? then !c.isLogin else c.isLogin)
  {
    match e
    case LoginSubmitted(form, reply) =>
      if Login.Accepts(form) && reply.Ok? then SignedIn(c, reply.data) else c
    case RegisterSubmitted(form, reply) =>
      if Register.Accepts(form) && reply.Ok? then SignedIn(c, reply.data) else c
    case FormToggled => ToggleForm(c)
    case TodosFetched(reply) =>
      if reply.Ok? then c.(todos := reply.data) else Expire(c, reply)
    case TodoAdded(title, reply) =>
      if Blank(title) then c
      else if reply.Ok? then c.(todos := Append(c.todos, reply.data))
      else Expire(c, reply)
    case TodoDeleted(id, reply) =>
      if reply.Ok? then c.(todos := RemoveId(c.todos, id)) else Expire(c, reply)
    case TodoToggled(id, _, reply) =>
      if reply.Ok? then c.(todos := ReplaceId(c.todos, id, reply.data)) else Expire(c, reply)
    case LoggedOut => SignedOut(c)
  }

  /** The reply to a TodoList request with its payload dropped. */
  function Outcome(e: Event): (r: Reply<()>)
    requires e.TodosFetched? || e.TodoAdded? || e.TodoDeleted? || e.TodoToggled?
  {
    match e
    case TodosFetched(reply) => Erase(reply)
    case TodoAdded(_, reply) => Erase(reply)
    case TodoDeleted(_, reply) => Erase(reply)
    case TodoToggled(_, _, reply) => Erase(reply)
  }

  function Erase<T>(reply: Reply<T>): (r: Reply<()>)
    ensures r.Ok? <==> reply.Ok?
    ensures IsUnauthorized(r) <==> IsUnauthorized(reply)
  {
    match reply
    case Ok(_) => Ok(())
    case NoResponse => NoResponse
    case Failed(status, msg) => Failed(status, msg)
  }

  /** A failed TodoList request ends the session on 401 and changes nothing
      otherwise; in particular the list is kept. */
  lemma TodoFailure(c: Client, e: Event)
    requires e.TodosFetched? || e.TodoAdded? || e.TodoDeleted? || e.TodoToggled?
    requires e.TodoAdded? ==> !Blank(e.title)
    requires !Outcome(e).Ok?
    ensures IsUnauthorized(Outcome(e)) ==> Step(c, e) == SignedOut(c) && ScreenOf(Step(c, e)) != TodoScreen
    ensures !IsUnauthorized(Outcome(e)) ==> Step(c, e) == c
    ensures Step(c, e).todos == c.todos
  {
  }

  /** A successful login puts the returned token in App state and in
      storage, and shows the todo list when the token is truthy; a failed
      or blocked one changes nothing. */
  lemma LoginStoresToken(c: Client, form: Credentials, reply: Reply<string>)
    ensures Login.Accepts(form) && reply.Ok? ==>
      Step(c, LoginSubmitted(form, reply)).token == Some(reply.data) == Step(c, LoginSubmitted(form, reply)).stored
    ensures Login.Accepts(form) && reply.Ok? && reply.data != "" ==> ScreenOf(Step(c, LoginSubmitted(form, reply))) == TodoScreen
    ensures !(Login.Accepts(form) && reply.Ok?) ==> Step(c, LoginSubmitted(form, reply)) == c
  {
  }

  /** The same for a registration. */
  lemma RegisterStoresToken(c: Client, form: Credentials, reply: Reply<string>)
    ensures Register.Accepts(form) && reply.Ok? ==>
      Step(c, RegisterSubmitted(form, reply)).token == Some(reply.data) == Step(c, RegisterSubmitted(form, reply)).stored
    ensures Register.Accepts(form) && reply.Ok? && reply.data != "" ==> ScreenOf(Step(c, RegisterSubmitted(form, reply))) == TodoScreen
    ensures !(Register.Accepts(form) && reply.Ok?) ==> Step(c, RegisterSubmitted(form, reply)) == c
  {
  }

  /** Logging out always clears both copies of the token and leaves the
      form screens. */
  lemma LogoutClearsToken(c: Client)
    ensures Step(c, LoggedOut).token.None? && Step(c, LoggedOut).stored.None?
    ensures ScreenOf(Step(c, LoggedOut)) != TodoScreen
  {
  }

  /** The state after a sequence of events. */
  function Run(c: Client, events: seq<Event>): Client
    decreases |events|
  {
    if |events| == 0 then c else Run(Step(c, events[0]), events[1..])
  }

  /** App state and local storage hold the same token in every state the
      session can reach: they start equal and every handler writes both. */
  lemma {:induction false} RunKeepsTokenStored(stored: Option<string>, events: seq<Event>)
    ensures Run(Init(stored), events).token == Run(Init(stored), events).stored
  {
    RunPreservesSync(Init(stored), events);
  }

  lemma {:induction false} RunPreservesSync(c: Client, events: seq<Event>)
    requires c.token == c.stored
    ensures Run(c, events).token == Run(c, events).stored
    decreases |events|
  {
    if |events| > 0 {
      RunPreservesSync(Step(c, events[0]), events[1..]);
    }
  }
}

=== FILE: auth_forms.dfy ===
/** What the Login and Register forms share: the submitted values, the
    username rules (both forms declare `required`, then `min: 3`), the
    "password required" message and the network-error message, defined once
    here.

    A rule list is evaluated the way the form library does it for these
    rules: an absent or empty value fails only `required`, and a non-empty
    value is measured against `min`, so at most one message is shown. */
module AuthForms {
  import opened Http

  /** The values a form submits; an untouched field is absent. */
  datatype Credentials = Credentials(username: Option<string>, password: Option<string>)

  /** The verdict on one form field: accepted, or rejected with the message
      the form shows under it. */
  datatype FieldCheck = Valid | Invalid(message: string)

  const UsernameRequiredText: string := "Vui lòng nhập tài khoản!"
  const UsernameTooShortText: string := "Tài khoản phải có ít nhất 3 ký tự!"
  const PasswordRequiredText: string := "Vui lòng nhập mật khẩu!"

  const NetworkErrorText: string := "Lỗi kết nối mạng, vui lòng thử lại"

  const MinUsernameLength: nat := 3

  /** The form library's notion of an empty value: absent or "". */
  predicate Blank(value: Option<string>) {
    value.None? || value.value == ""
  }

  /** `[{ required: true, ... }, { min: 3, ... }]` on the username field. */
  function CheckUsername(value: Option<string>): (r: FieldCheck)
    ensures r == Valid <==> value.Some? && |value.value| >= MinUsernameLength
    ensures r == Invalid(UsernameRequiredText) <==> Blank(value)
    ensures r == Invalid(UsernameTooShortText) <==> value.Some? && 0 < |value.value| < MinUsernameLength
  {
    if Blank(value) then Invalid(UsernameRequiredText)
    else if |value.value| < MinUsernameLength then Invalid(UsernameTooShortText)
    else Valid
  }

  /** The `required` rule judged on its own. */
  predicate RequiredHolds(value: Option<string>) {
    !Blank(value)
  }

  /** The `min: 3` rule judged on its own: the form library skips it for an
      empty value, leaving that to `required`. */
  predicate MinLengthHolds(value: Option<string>) {
    Blank(value) || |value.value| >= MinUsernameLength
  }

  /** At most one of the two username rules fails, and the verdict shows
      the message of the one that does. */
  lemma UsernameRulesSeparately(value: Option<string>)
    ensures !(!RequiredHolds(value) && !MinLengthHolds(value))
    ensures CheckUsername(value) == Valid <==> RequiredHolds(value) && MinLengthHolds(value)
    ensures CheckUsername(value) == Invalid(UsernameRequiredText) <==> !RequiredHolds(value)
    ensures CheckUsername(value) == Invalid(UsernameTooShortText) <==> !MinLengthHolds(value)
  {
  }

  /** `[{ required: true, ... }]`: a field that only has to be filled in. */
  function CheckRequired(value: Option<string>, message: string): (r: FieldCheck)
    ensures r == Valid <==> !Blank(value)
    ensures r != Valid ==> r.message == message
  {
    if Blank(value) then Invalid(message) else Valid
  }
}

=== FILE: cors.dfy ===
/** The backend's CORS middleware: from the request's `Origin` header and
    method it decides which response headers to set and whether to answer
    the request itself (a preflight) or hand it on to the next handler. */
module Cors {
  import opened Http

  const AllowedOrigins: seq<string> := [
    "http://localhost:3000",
    "https://todo-list-red-nine-46.vercel.app",
    "https://todolist-h26x.onrender.com"
  ]

  const AllowOriginHeader: string := "Access-Control-Allow-Origin"
  const AllowMethodsHeader: string := "Access-Control-Allow-Methods"
  const AllowHeadersHeader: string := "Access-Control-Allow-Headers"
  const AllowCredentialsHeader: string := "Access-Control-Allow-Credentials"
  const MaxAgeHeader: string := "Access-Control-Max-Age"

  const AllowedMethods: string := "GET, POST, PUT, DELETE, OPTIONS"
  const AllowedRequestHeaders: string := "Origin, X-Requested-With, Content-Type, Accept, Authorization"
  const PreflightMaxAge: string := "86400"
  const PreflightMethod: string := "OPTIONS"
  const NoContent: int := 204

  /** How the middleware finishes: ending the response with a status, or
      calling `next()` once without setting a status. */
  datatype Continuation = EndWith(status: int) | CallNext

  /** The response headers set, by name, and how the middleware finishes. */
  datatype Decision = Decision(headers: map<string, string>, continuation: Continuation)

  /** The headers every request gets, whatever its origin or method. */
  const FixedHeaders: map<string, string> := map[
    AllowMethodsHeader := AllowedMethods,
    AllowHeadersHeader := AllowedRequestHeaders,
    AllowCredentialsHeader := "true"
  ]

  /** `allowedOrigins.includes(origin)`: exact, case-sensitive membership;
      a request without an `Origin` header never matches. */
  predicate Allowed(origin: Option<string>) {
    origin.Some? && origin.value in AllowedOrigins
  }

  /** `corsMiddleware(req, res, next)` */
  function Handle(origin: Option<string>, verb: string): (d: Decision)
    ensures AllowOriginHeader in d.headers <==> Allowed(origin)
    ensures AllowOriginHeader in d.headers ==> d.headers[AllowOriginHeader] == origin.value
    ensures forall name :: name in FixedHeaders ==> name in d.headers && d.headers[name] == FixedHeaders[name]
    ensures MaxAgeHeader in d.headers <==> verb == PreflightMethod
    ensures MaxAgeHeader in d.headers ==> d.headers[MaxAgeHeader] == PreflightMaxAge
    ensures d.headers.Keys <= FixedHeaders.Keys + {AllowOriginHeader, MaxAgeHeader}
    ensures d.continuation == EndWith(NoContent) <==> verb == PreflightMethod
    ensures d.continuation == CallNext <==> verb != PreflightMethod
  {
    var echoed := if Allowed(origin) then map[AllowOriginHeader := origin.value] else map[];
    var headers := echoed + FixedHeaders;
    if verb == PreflightMethod then
      Decision(headers[MaxAgeHeader := PreflightMaxAge], EndWith(NoContent))
    else
      Decision(headers, CallNext)
  }

  /** A preflight gets exactly the headers any other request from the same
      origin gets, plus `Max-Age`. */
  lemma PreflightAddsOnlyMaxAge(origin: Option<string>, verb: string)
    requires verb != PreflightMethod
    ensures Handle(origin, PreflightMethod).headers == Handle(origin, verb).headers[MaxAgeHeader := PreflightMaxAge]
  {
  }

  /** Whether the request is passed on depends on the method alone, never
      on the origin: a disallowed origin is not blocked, only left without
      `Allow-Origin`. */
  lemma ContinuationIgnoresOrigin(o1: Option<string>, o2: Option<string>, verb: string)
    ensures Handle(o1, verb).continuation == Handle(o2, verb).continuation
  {
  }

  /** Credentials are always allowed, so the origin is echoed and never
      the wildcard that browsers refuse together with credentials. */
  lemma NeverWildcardWithCredentials(origin: Option<string>, verb: string)
    ensures Handle(origin, verb).headers[AllowCredentialsHeader] == "true"
    ensures AllowOriginHeader in Handle(origin, verb).headers ==> Handle(origin, verb).headers[AllowOriginHeader] != "*"
  {
    assert AllowCredentialsHeader in FixedHeaders;
  }

  /** The match is exact: a trailing slash or a change of case is enough
      to lose the `Allow-Origin` header. */
  lemma MatchIsExact()
    ensures AllowOriginHeader in Handle(Some("http://localhost:3000"), "GET").headers
    ensures AllowOriginHeader !in Handle(Some("http://localhost:3000/"), "GET").headers
    ensures AllowOriginHeader !in Handle(Some("HTTP://localhost:3000"), "GET").headers
    ensures AllowOriginHeader !in Handle(None, "GET").headers
  {
    assert "http://localhost:3000/" != AllowedOrigins[0] by {
      assert |"http://localhost:3000/"| != |AllowedOrigins[0]|;
    }
    assert "HTTP://localhost:3000" != AllowedOrigins[0] by {
      assert "HTTP://localhost:3000"[0] != AllowedOrigins[0][0];
    }
  }
}

=== FILE: http.dfy ===
/** Shared vocabulary of the client model: optional values, the abstract
    outcome of one HTTP request, and the JavaScript truthiness rules the
    client code relies on. */
module Http {

  /** An optional value; `None` stands for JavaScript `null`/`undefined`. */
  datatype Option<+T> = None | Some(value: T)

  /** The outcome of one request made by the client, as its `catch` blocks
      see it: a 2xx response with its body, a request that got no response
      at all (`err.response` is undefined), or an error response with its
      status code and the `msg` field of its JSON body, if any. */
  datatype Reply<+T> = Ok(data: T) | NoResponse | Failed(status: int, msg: Option<string>)

  const Unauthorized: int := 401

  /** `error.response?.status === 401` */
  predicate IsUnauthorized<T>(r: Reply<T>) {
    r.Failed? && r.status == Unauthorized
  }

  /** JavaScript truthiness of an optional string: absent and "" are falsy. */
  predicate Truthy(s: Option<string>) {
    s.Some? && s.value != ""
  }

  /** `s || fallback` on an optional string. */
  function OrElse(s: Option<string>, fallback: string): (r: string)
    ensures Truthy(s) ==> r == s.value
    ensures !Truthy(s) ==> r == fallback
    ensures fallback != "" ==> r != ""
  {
    if Truthy(s) then s.value else fallback
  }
}

=== FILE: login.dfy ===
/** The Login form: its field rules, the request it submits, and the
    message it shows when the request fails. */
module Login {
  import opened Http
  import opened AuthForms

  const BadCredentialsText: string := "Tài khoản hoặc mật khẩu không đúng"
  const LoginFailedText: string := "Đã xảy ra lỗi khi đăng nhập"

  /** The form submits (calls `handleSubmit`) exactly when both fields pass
      their rules: the username needs 3 characters, the password only has
      to be filled in, with no strength rule. */
  predicate Accepts(form: Credentials)
    ensures Accepts(form) <==>
      form.username.Some? && |form.username.value| >= MinUsernameLength
      && form.password.Some? && form.password.value != ""
  {
    CheckUsername(form.username) == Valid && CheckRequired(form.password, PasswordRequiredText) == Valid
  }

  /** The message of the `catch` block of `handleSubmit`. Every 401 gets
      the same generic message whatever its `msg`; whether an unknown
      username and a wrong password both get a 401 is up to the server
      routes, which are not modelled. */
  function FailureText(reply: Reply<string>): (text: string)
    requires !reply.Ok?
    ensures reply.NoResponse? ==> text == NetworkErrorText
    ensures reply.Failed? && reply.status == Unauthorized ==> text == BadCredentialsText
    ensures reply.Failed? && reply.status != Unauthorized && Truthy(reply.msg) ==> text == reply.msg.value
    ensures reply.Failed? && reply.status != Unauthorized && !Truthy(reply.msg) ==> text == LoginFailedText
    ensures text != ""
  {
    match reply
    case NoResponse => NetworkErrorText
    case Failed(status, msg) =>
      if status == Unauthorized then BadCredentialsText else OrElse(msg, LoginFailedText)
  }

  /** The login form accepts the username together with any non-empty
      password. */
  lemma AcceptsAnyNonEmptyPassword(username: string, password: string)
    requires |username| >= MinUsernameLength
    requires password != ""
    ensures Accepts(Credentials(Some(username), Some(password)))
  {
  }

  /** Two 401 replies show the same message whatever their `msg`. */
  lemma UnauthorizedIsUniform(msg1: Option<string>, msg2: Option<string>)
    ensures FailureText(Failed(Unauthorized, msg1)) == FailureText(Failed(Unauthorized, msg2))
  {
  }
}

=== FILE: progress.dfy ===
/** The progress bar of the TodoList component: the rounded percentage of
    completed todos, and the bar's status. */
module Progress {
  import opened Todos

  /** `k * x <= k * y` for a non-negative `k` whenever `x <= y`. */
  lemma MulMonotonic(k: nat, x: int, y: int)
    requires x <= y
    ensures k * x <= k * y
  {
    assert k * y - k * x == k * (y - x);
  }

  /** A strict inequality of two multiples of `k` carries over to the factors. */
  lemma MulCancel(k: nat, x: int, y: int)
    requires k * x < k * y
    ensures x < y
  {
    if y <= x {
      MulMonotonic(k, y, x);
    }
  }

  /** Euclidean division by a positive divisor brackets the dividend. */
  lemma DivBrackets(x: nat, d: nat)
    requires d > 0
    ensures d * (x / d) <= x < d * (x / d + 1)
  {
    assert x == d * (x / d) + x % d;
  }

  /** `Math.round(completed / total * 100)` in exact arithmetic: the
      nearest integer to 100 * completed / total, halves rounded up, and 0
      for an empty list. */
  function Percent(completed: nat, total: nat): (p: nat)
    requires completed <= total
    ensures total == 0 ==> p == 0
    ensures total > 0 ==> 2 * total * p <= 200 * completed + total < 2 * total * (p + 1)
    ensures p <= 100
  {
    if total == 0 then 0
    else
      var p := (200 * completed + total) / (2 * total);
      DivBrackets(200 * completed + total, 2 * total);
      MulMonotonic(200, completed, total);
      assert 2 * total * p < 2 * total * 101;
      MulCancel(2 * total, p, 101);
      p
  }

  /** `calculateProgress()` */
  function ProgressOf(todos: seq<Todo>): (p: nat)
    ensures p <= 100
    ensures |todos| == 0 ==> p == 0
  {
    Percent(CountCompleted(todos), |todos|)
  }

  /** A non-empty list whose every todo is completed shows 100. */
  lemma AllCompletedIsFull(todos: seq<Todo>)
    requires |todos| > 0
    requires forall i :: 0 <= i < |todos| ==> todos[i].completed
    ensures ProgressOf(todos) == 100
  {
    var n := |todos|;
    assert CountCompleted(todos) == n;
    var p := ProgressOf(todos);
    assert 2 * n * 100 < 2 * n * (p + 1);
    MulCancel(2 * n, 100, p + 1);
  }

  /** A list with no completed todo shows 0. */
  lemma NoneCompletedIsEmpty(todos: seq<Todo>)
    requires forall i :: 0 <= i < |todos| ==> !todos[i].completed
    ensures ProgressOf(todos) == 0
  {
    var n := |todos|;
    assert CountCompleted(todos) == 0;
    if n > 0 {
      var p := ProgressOf(todos);
      assert 2 * n * p < 2 * n * 1;
      MulCancel(2 * n, p, 1);
    }
  }

  /** For a fixed number of todos, completing more never lowers the bar. */
  lemma PercentMonotonic(c1: nat, c2: nat, total: nat)
    requires c1 <= c2 <= total
    ensures Percent(c1, total) <= Percent(c2, total)
  {
    if total > 0 {
      var p1, p2 := Percent(c1, total), Percent(c2, total);
      MulMonotonic(200, c1, c2);
      assert 2 * total * p1 < 2 * total * (p2 + 1);
      MulCancel(2 * total, p1, p2 + 1);
    }
  }

  /** Completing one open todo of a list never lowers the bar. */
  lemma CompletingNeverLowers(todos: seq<Todo>, i: int)
    requires UniqueIds(todos)
    requires 0 <= i < |todos|
    requires !todos[i].completed
    ensures ProgressOf(todos) <= ProgressOf(ReplaceId(todos, todos[i].id, Flipped(todos[i])))
  {
    CompletingCountsOne(todos, i);
    PercentMonotonic(CountCompleted(todos), CountCompleted(todos) + 1, |todos|);
  }

  /** The status passed to the progress bar. */
  datatype BarStatus = Active | Success

  /** The status as the component computes it: `'success'` exactly when the
      rounded percentage is 100. */
  function StatusAsWritten(todos: seq<Todo>): (s: BarStatus)
    ensures s == Success <==> ProgressOf(todos) == 100
  {
    if ProgressOf(todos) == 100 then Success else Active
  }

  /** From 200 todos on, one open todo is lost in the rounding: with 201
      todos of which 200 are completed the percentage rounds to 100 and the
      bar reports success although a todo is still open. */
  lemma StatusAsWrittenSucceedsEarly(todos: seq<Todo>)
    requires |todos| == 201
    requires CountCompleted(todos) == 200
    ensures StatusAsWritten(todos) == Success
    ensures exists i :: 0 <= i < |todos| && !todos[i].completed
  {
    assert Percent(200, 201) == 100;
  }

  /** The status the bar evidently means: success exactly when there are
      todos and every one of them is completed. */
  function StatusOf(todos: seq<Todo>): (s: BarStatus)
    ensures s == Success <==> |todos| > 0 && forall i :: 0 <= i < |todos| ==> todos[i].completed
    ensures s == Success ==> ProgressOf(todos) == 100
  {
    if |todos| > 0 && CountCompleted(todos) == |todos| then
      AllCompletedIsFull(todos);
      Success
    else Active
  }

  /** Below 200 todos the rounding cannot reach 100 early, so the status as
      written and the intended status agree. */
  lemma StatusAgreesBelow200(todos: seq<Todo>)
    requires |todos| < 200
    ensures StatusAsWritten(todos) == StatusOf(todos)
  {
    var n, c := |todos|, CountCompleted(todos);
    if n > 0 && c < n {
      var p := Percent(c, n);
      MulMonotonic(200, c, n - 1);
      assert 2 * n * p < 2 * n * 100;
      MulCancel(2 * n, p, 100);
    } else if n > 0 {
      AllCompletedIsFull(todos);
    }
  }
}

=== FILE: register.dfy ===
/** The Register form: the ordered password validator, the field rules, and
    the message it shows when the request fails. */
module Register {
  import opened Http
  import opened AuthForms

  const MinPasswordLength: nat := 6

  /** The characters of the class `[!@#$%^&*(),.?":{}|<>]`. */
  const SpecialChars: set<char> := {'!', '@', '#', '$', '%', '^', '&', '*', '(', ')',
                                    ',', '.', '?', '"', ':', '{', '}', '|', '<', '>'}

  const PasswordTooShortText: string := "Mật khẩu phải có ít nhất 6 ký tự!"
  const PasswordNoUppercaseText: string := "Mật khẩu phải có ít nhất 1 chữ cái in hoa!"
  const PasswordNoSpecialText: string := "Mật khẩu phải có ít nhất 1 ký tự đặc biệt!"

  const DuplicateServerMsg: string := "Username already exists"
  const DuplicateText: string := "Tài khoản này đã tồn tại"
  const RegisterFailedText: string := "Đã xảy ra lỗi khi đăng ký"

  /** `/[A-Z]/.test(s)`: an ASCII capital letter occurs in `s`. */
  predicate HasUppercase(s: string) {
    exists i :: 0 <= i < |s| && 'A' <= s[i] <= 'Z'
  }

  /** `/[!@#$%^&*(),.?":{}|<>]/.test(s)` */
  predicate HasSpecial(s: string) {
    exists i :: 0 <= i < |s| && s[i] in SpecialChars
  }

  /** The four password checks, in the order the validator runs them. */
  datatype PasswordRule = Required | MinLength | Uppercase | Special

  const PasswordRules: seq<PasswordRule> := [Required, MinLength, Uppercase, Special]

  /** Whether `value` passes one check taken on its own. */
  predicate Holds(rule: PasswordRule, value: Option<string>) {
    match rule
    case Required => !Blank(value)
    case MinLength => value.Some? && |value.value| >= MinPasswordLength
    case Uppercase => value.Some? && HasUppercase(value.value)
    case Special => value.Some? && HasSpecial(value.value)
  }

  /** The message a failed check shows. */
  function RuleText(rule: PasswordRule): (text: string)
    ensures text != ""
  {
    match rule
    case Required => PasswordRequiredText
    case MinLength => PasswordTooShortText
    case Uppercase => PasswordNoUppercaseText
    case Special => PasswordNoSpecialText
  }

  /** `validatePassword`: the rule that rejects `value`, or `None` when the
      password is accepted. */
  function ValidatePassword(value: Option<string>): (failed: Option<PasswordRule>)
    ensures failed == Some(Required) <==> Blank(value)
    ensures failed == Some(MinLength) <==> !Blank(value) && |value.value| < MinPasswordLength
    ensures failed == Some(Uppercase) <==>
      value.Some? && |value.value| >= MinPasswordLength && !HasUppercase(value.value)
    ensures failed == Some(Special) <==>
      value.Some? && |value.value| >= MinPasswordLength && HasUppercase(value.value) && !HasSpecial(value.value)
    ensures failed == None <==> forall rule :: Holds(rule, value)
  {
    assert (forall rule :: Holds(rule, value)) <==>
      Holds(Required, value) && Holds(MinLength, value) && Holds(Uppercase, value) && Holds(Special, value);
    if Blank(value) then Some(Required)
    else if |value.value| < MinPasswordLength then Some(MinLength)
    else if !HasUppercase(value.value) then Some(Uppercase)
    else if !HasSpecial(value.value) then Some(Special)
    else None
  }

  /** Reference reading of an ordered rule list: the first rule `value`
      fails, if any. */
  function FirstFailing(rules: seq<PasswordRule>, value: Option<string>): (failed: Option<PasswordRule>)
    ensures failed.None? <==> forall k :: 0 <= k < |rules| ==> Holds(rules[k], value)
    ensures failed.Some? ==> exists k :: 0 <= k < |rules| && rules[k] == failed.value && !Holds(rules[k], value)
                                         && forall j :: 0 <= j < k ==> Holds(rules[j], value)
  {
    if |rules| == 0 then None
    else if !Holds(rules[0], value) then Some(rules[0])
    else
      var rest := FirstFailing(rules[1..], value);
      if rest.Some? then
        var k :| 0 <= k < |rules[1..]| && rules[1..][k] == rest.value
                 && !Holds(rules[1..][k], value) && forall j :: 0 <= j < k ==> Holds(rules[1..][j], value);
        assert rules[k + 1] == rest.value;
        assert forall j :: 0 <= j < k + 1 ==> Holds(rules[j], value) by {
          forall j | 0 <= j < k + 1
            ensures Holds(rules[j], value)
          {
            if j > 0 {
              assert rules[j] == rules[1..][j - 1];
            }
          }
        }
        rest
      else
        assert forall k :: 0 <= k < |rules| ==> Holds(rules[k], value) by {
          forall k | 0 <= k < |rules|
            ensures Holds(rules[k], value)
          {
            if k > 0 {
              assert rules[k] == rules[1..][k - 1];
            }
          }
        }
        rest
  }

  /** The validator reports exactly the first failing check in the order
      required, length, uppercase, special. */
  lemma ValidateIsFirstFailing(value: Option<string>)
    ensures ValidatePassword(value) == FirstFailing(PasswordRules, value)
  {
    var failed := FirstFailing(PasswordRules, value);
    if failed.Some? {
      var k :| 0 <= k < |PasswordRules| && PasswordRules[k] == failed.value && !Holds(PasswordRules[k], value)
               && forall j :: 0 <= j < k ==> Holds(PasswordRules[j], value);
      assert PasswordRules[0] == Required;
      assert PasswordRules[1] == MinLength;
      assert PasswordRules[2] == Uppercase;
      assert PasswordRules[3] == Special;
    } else {
      assert Holds(PasswordRules[0], value) && Holds(PasswordRules[1], value);
      assert Holds(PasswordRules[2], value) && Holds(PasswordRules[3], value);
    }
  }

  /** The verdict of the password field, with the message it shows. */
  function CheckPassword(value: Option<string>): (r: FieldCheck)
    ensures r == Valid <==> forall rule :: Holds(rule, value)
    ensures r.Invalid? ==> r.message == RuleText(ValidatePassword(value).value)
  {
    match ValidatePassword(value)
    case None => Valid
    case Some(rule) => Invalid(RuleText(rule))
  }

  /** The form submits exactly when the username rules and all four
      password checks pass. */
  predicate Accepts(form: Credentials)
    ensures Accepts(form) <==>
      form.username.Some? && |form.username.value| >= MinUsernameLength
      && form.password.Some? && |form.password.value| >= MinPasswordLength
      && HasUppercase(form.password.value) && HasSpecial(form.password.value)
  {
    CheckUsername(form.username) == Valid && CheckPassword(form.password) == Valid
  }

  /** The message of the `catch` block of `handleSubmit`: the server's
      duplicate-username report is translated, any other server `msg` is
      shown as it is, and the default covers a reply without one. */
  function FailureText(reply: Reply<string>): (text: string)
    requires !reply.Ok?
    ensures reply.NoResponse? ==> text == NetworkErrorText
    ensures reply.Failed? && reply.msg == Some(DuplicateServerMsg) ==> text == DuplicateText
    ensures reply.Failed? && reply.msg != Some(DuplicateServerMsg) && Truthy(reply.msg) ==> text == reply.msg.value
    ensures reply.Failed? && !Truthy(reply.msg) ==> text == RegisterFailedText
    ensures text != "" && text != DuplicateServerMsg
  {
    match reply
    case NoResponse => NetworkErrorText
    case Failed(_, msg) =>
      if msg == Some(DuplicateServerMsg) then DuplicateText else OrElse(msg, RegisterFailedText)
  }

  /** Every password the registration form accepts would also pass the
      login form's password rule, but not the other way round. */
  lemma RegisterStricterThanLogin(value: Option<string>)
    ensures CheckPassword(value) == Valid ==> CheckRequired(value, PasswordRequiredText) == Valid
    ensures CheckRequired(Some("a"), PasswordRequiredText) == Valid && CheckPassword(Some("a")) != Valid
  {
    assert ValidatePassword(Some("a")) == Some(MinLength);
  }
}

=== FILE: todos.dfy ===
/** The todo list held by the TodoList component and the pure list updates
    its handlers apply after a successful server reply. */
module Todos {

  /** One todo as the server returns it (`_id`, `title`, `completed`). */
  datatype Todo = Todo(id: string, title: string, completed: bool)

  /** The todo with its `completed` flag negated. */
  function Flipped(t: Todo): Todo {
    t.(completed := !t.completed)
  }

  /** No two entries share an id, as for a list the server built. */
  predicate UniqueIds(todos: seq<Todo>) {
    forall i, j :: 0 <= i < j < |todos| ==> todos[i].id != todos[j].id
  }

  /** Some entry carries `id`. */
  predicate HasId(todos: seq<Todo>, id: string) {
    exists i :: 0 <= i < |todos| && todos[i].id == id
  }

  /** `[...todos, data]` after a successful add: the server's todo goes at
      the end, everything before it is kept as it was. */
  function Append(todos: seq<Todo>, data: Todo): (r: seq<Todo>)
    ensures |r| == |todos| + 1
    ensures r[..|todos|] == todos
    ensures r[|todos|] == data
  {
    todos + [data]
  }

  /** `todos.filter(todo => todo._id !== id)` after a successful delete. */
  function RemoveId(todos: seq<Todo>, id: string): (r: seq<Todo>)
    ensures |r| <= |todos|
    ensures forall t :: t in r <==> t in todos && t.id != id
    ensures !HasId(r, id)
  {
    if |todos| == 0 then []
    else if todos[0].id == id then RemoveId(todos[1..], id)
    else [todos[0]] + RemoveId(todos[1..], id)
  }

  /** `todos.map(todo => todo._id === id ? data : todo)` after a successful
      update: every entry with the id becomes the server's todo, every other
      entry stays where and what it was. */
  function ReplaceId(todos: seq<Todo>, id: string, data: Todo): (r: seq<Todo>)
    ensures |r| == |todos|
    ensures forall i :: 0 <= i < |todos| && todos[i].id != id ==> r[i] == todos[i]
    ensures forall i :: 0 <= i < |todos| && todos[i].id == id ==> r[i] == data
  {
    seq(|todos|, i requires 0 <= i < |todos| => if todos[i].id == id then data else todos[i])
  }

  /** `todos.filter(todo => todo.completed).length` */
  function CountCompleted(todos: seq<Todo>): (n: nat)
    ensures n <= |todos|
    ensures n == |todos| <==> forall i :: 0 <= i < |todos| ==> todos[i].completed
    ensures n == 0 <==> forall i :: 0 <= i < |todos| ==> !todos[i].completed
  {
    if |todos| == 0 then 0
    else (if todos[0].completed then 1 else 0) + CountCompleted(todos[1..])
  }

  /** Deleting keeps the relative order of the surviving entries: the
      filter distributes over concatenation. */
  lemma {:induction false} RemoveIdConcat(a: seq<Todo>, b: seq<Todo>, id: string)
    ensures RemoveId(a + b, id) == RemoveId(a, id) + RemoveId(b, id)
    decreases |a|
  {
    if |a| == 0 {
      assert a + b == b;
    } else {
      assert (a + b)[1..] == a[1..] + b;
      RemoveIdConcat(a[1..], b, id);
    }
  }

  /** Deleting an id nobody carries changes nothing. */
  lemma {:induction false} RemoveAbsentId(todos: seq<Todo>, id: string)
    requires !HasId(todos, id)
    ensures RemoveId(todos, id) == todos
    decreases |todos|
  {
    if |todos| > 0 {
      assert todos[0].id != id;
      assert !HasId(todos[1..], id) by {
        forall i | 0 <= i < |todos[1..]|
          ensures todos[1..][i].id != id
        {
          assert todos[1..][i] == todos[i + 1];
        }
      }
      RemoveAbsentId(todos[1..], id);
      assert todos == [todos[0]] + todos[1..];
    }
  }

  /** Deleting the same id a second time changes nothing. */
  lemma RemoveIdIdempotent(todos: seq<Todo>, id: string)
    ensures RemoveId(RemoveId(todos, id), id) == RemoveId(todos, id)
  {
    RemoveAbsentId(RemoveId(todos, id), id);
  }

  /** Deleting a freshly added todo undoes the add, provided its id was new. */
  lemma AppendThenRemove(todos: seq<Todo>, data: Todo)
    requires !HasId(todos, data.id)
    ensures RemoveId(Append(todos, data), data.id) == todos
  {
    RemoveIdConcat(todos, [data], data.id);
    RemoveAbsentId(todos, data.id);
    assert RemoveId([data], data.id) == [] by {
      assert [data][1..] == [];
    }
  }

  /** Replacing an id nobody carries changes nothing. */
  lemma ReplaceAbsentId(todos: seq<Todo>, id: string, data: Todo)
    requires !HasId(todos, id)
    ensures ReplaceId(todos, id, data) == todos
  {
  }

  /** On a list with unique ids, replacing the id held at index `i` is an
      update of that one index. */
  lemma ReplaceUniqueId(todos: seq<Todo>, i: int, data: Todo)
    requires UniqueIds(todos)
    requires 0 <= i < |todos|
    ensures ReplaceId(todos, todos[i].id, data) == todos[i := data]
  {
  }

  /** Toggling a todo and toggling it back, with the server echoing each
      requested state and keeping the id, restores the list. */
  lemma ToggleTwiceRestores(todos: seq<Todo>, i: int)
    requires UniqueIds(todos)
    requires 0 <= i < |todos|
    ensures ReplaceId(ReplaceId(todos, todos[i].id, Flipped(todos[i])), todos[i].id, Flipped(Flipped(todos[i]))) == todos
  {
    var once := ReplaceId(todos, todos[i].id, Flipped(todos[i]));
    ReplaceUniqueId(todos, i, Flipped(todos[i]));
    assert UniqueIds(once);
    assert once[i].id == todos[i].id;
    ReplaceUniqueId(once, i, Flipped(todos[i]));
  }

  /** Changing one entry changes the completed count by the difference of
      the two entries' flags. */
  lemma {:induction false} CountCompletedUpdate(todos: seq<Todo>, i: int, t: Todo)
    requires 0 <= i < |todos|
    ensures CountCompleted(todos[i := t]) + (if todos[i].completed then 1 else 0)
         == CountCompleted(todos) + (if t.completed then 1 else 0)
    decreases |todos|
  {
    var u := todos[i := t];
    if i > 0 {
      assert u[1..] == todos[1..][i - 1 := t];
      CountCompletedUpdate(todos[1..], i - 1, t);
    } else {
      assert u[1..] == todos[1..];
    }
  }

  /** Completing an open todo raises the completed count by exactly one. */
  lemma CompletingCountsOne(todos: seq<Todo>, i: int)
    requires UniqueIds(todos)
    requires 0 <= i < |todos|
    requires !todos[i].completed
    ensures CountCompleted(ReplaceId(todos, todos[i].id, Flipped(todos[i]))) == CountCompleted(todos) + 1
  {
    ReplaceUniqueId(todos, i, Flipped(todos[i]));
    CountCompletedUpdate(todos, i, Flipped(todos[i]));
  }
}
